=== FILE: README.md ===
# Gorilla artillery game — a Dafny model of the game core

The game is a two-player artillery duel in the style of the classic
"Gorillas". A human and a scripted AI opponent stand on the roofs of a
procedurally generated city skyline. They take turns lobbing a banana.
Each shot is given as an angle and a launch speed, and it is affected by
gravity and a per-level wind. A shot that lands in the opponent's hit box
scores a point. A shot that lands on a building records damage on it and
passes the turn.

This project models the logic behind that loop as pure Dafny functions
over mathematical reals:

- `Types` (`types.dfy`): positions, players, buildings, the screen, and
  the "buildings tile the screen width" invariant.
- `Physics` (`physics.dfy`): the Euler integrator that samples a shot's
  trajectory (`calculateTrajectory`). It is given twice, as a reference
  definition and as the source's loop, and the two are proved equal. It
  also has closed forms for the sampled positions, and it shows that two
  windless shots fired at the same angle and speed from one shared start
  point, one by the human and one by the AI, are mirror images about the
  vertical through that point.
- `LevelGenerator` (`level_generator.dfy`): `generateLevel`. This covers
  the building count, height and wind caps, the skyline, and where the
  two players are placed.
- `OpponentAI` (`opponent.dfy`): `mockAIDecision`, the AI's aiming
  heuristic, including its noise and clamping.
- `Collision` (`collision.dfy`): `checkCollisions` and `updateBuildings`.
- `GameLoop` (`game_loop.dfy`): the game's state machine. This covers the
  50 ms projectile tick, `handlePlayerHit`, the fire-button guard, firing,
  and the AI's turn.

Everything the source reads from the outside world is a parameter of the
model:

- The window size is a `Screen`.
- Every `Math.random()` value is a real in [0, 1).
- `Math.cos`/`Math.sin` in degrees form a `Trig` pair of functions.
- `Math.sqrt` is a function.

All arithmetic is exact real arithmetic.

## Model

| member | source | states |
|---|---|---|
| `Types.Opponent` | app/index.tsx:200 | the other player is never the same as the given one (turns alternate) |
| `Collision.Target` | app/index.tsx:248 | the player a shot can hit is the opponent of the player on turn |
| `Collision.Scan` | app/index.tsx:264-272 | the forEach over buildings: if any building from i on contains the point, the result is a building hit at that point whose index is the LAST containing building; if none does, the accumulated result is returned unchanged |
| `Collision.CheckCollisions` | app/index.tsx:238-275 | a point in the opponent's closed ±15 box is a player hit with no building index; otherwise a point in some building is a building hit at the last containing building; otherwise no hit, index -1 |
| `Collision.PlayerHitTakesPrecedence` | app/index.tsx:256-261 | when the opponent's box and a building both contain the point, the player hit is reported and no building |
| `Collision.ToLocal` | app/index.tsx:288 | a damage record translated back by the building's corner gives the world point |
| `Collision.UpdateBuildings` | app/index.tsx:278-293 | a negative index changes nothing; otherwise only building i changes: it is marked damaged, keeps its rectangle and colour, and gains exactly one damage record (its earlier records kept in order) that maps back to the hit point |
| `Collision.DamageAccumulates` | app/index.tsx:286-289 | two hits on one building append their local points in call order |
| `Collision.RecordedDamageLiesInBuilding` | app/index.tsx:207-217 | the damage recorded for a building hit the resolver reports lies within that building's own width and height |
| `Collision.UpdatePreservesTiling` | app/index.tsx:284-290 | damage never moves or resizes a building, so the terrain still tiles the screen |
| `Physics.MaxPoints` | app/utils/physics.ts:41 | the point cap is 20 for a preview and 500 for a shot |
| `Physics.TimeStep` | app/utils/physics.ts:42 | the integration step is 0.5 for a preview and 0.1 for a shot, so the preview uses the coarser step |
| `Physics.LaunchDirection` | app/utils/physics.ts:28-32 | the launch velocity (`Launch`) at a positive speed points up the screen when the sine is positive, and right or left as the cosine is positive or negative |
| `Physics.LaunchSpeed` | app/utils/physics.ts:28-32 | when cos² + sin² = 1 the launch velocity has exactly the given speed |
| `Physics.LaunchMirrored` | app/utils/physics.ts:28-32 | the AI's launch at angle a (fired at 180 - a) is the human's with the horizontal component negated and the vertical one unchanged |
| `Physics.ElapsedTime` | app/utils/physics.ts:62 | after k steps the clock reads k·dt |
| `Physics.WindDriftAccumulates` | app/utils/physics.ts:52 | after k steps the horizontal velocity has gained k·wind·0.01 |
| `Physics.HorizontalClosedForm` | app/utils/physics.ts:51-55 | x after k steps is x0 + k·vx·dt + wind·0.01·dt·k(k+1)/2 |
| `Physics.VerticalClosedForm` | app/utils/physics.ts:56 | y after k steps is y0 + k·vy·dt + 0.2·dt²·k(k-1)/2 |
| `Physics.PointCount` | app/utils/physics.ts:44-50 | the number of samples is at most the cap, every position tested before a step is on screen, and sampling stops at the cap or at the first off-screen position |
| `Physics.PointCountUnique` | app/utils/physics.ts:44-50 | any count that satisfies that stopping rule is the one the loop produces |
| `Physics.Trajectory` | app/utils/physics.ts:19-66 | at most MaxPoints samples; none when the start is off screen, at least one when it is on screen; every sample but the last is on screen, and a sample list shorter than the cap ends with the first point off screen |
| `Physics.TrajectoryPoint` | app/utils/physics.ts:55-61 | sample k is the position after k + 1 integration steps |
| `Physics.TrajectoryExtensional` | app/utils/physics.ts:44-65 | a list with the right length and the right points is the trajectory |
| `Physics.FirstStep` | app/utils/physics.ts:51-56 | the first sample is the start moved by (vx + wind·0.01)·dt across and vy·dt down (no gravity yet) |
| `Physics.StepFrom` | app/utils/physics.ts:51-62 | position k+1 is position k advanced with horizontal speed vx + (k+1)·wind·0.01 and vertical speed vy + 0.2·k·dt |
| `Physics.TrajectorySteps` | app/utils/physics.ts:51-62 | consecutive samples differ by exactly that Euler step |
| `Physics.MirrorStep` | app/utils/physics.ts:52-56 | a windless step keeps two mirror-image flight states mirror images |
| `Physics.MirroredFlight` | app/utils/physics.ts:28-62 | without wind, the AI's flight at angle a is the human's at angle a reflected about the vertical through the start, at every step |
| `Physics.CalculateTrajectory` | app/utils/physics.ts:19-66 | the loop returns exactly the reference trajectory, within the point cap, with every point but the last on screen |
| `LevelGenerator.Scaled` | app/utils/levelGenerator.ts:55 | random·bound lies in [0, bound], and below bound when bound > 0 |
| `LevelGenerator.Spread` | app/utils/levelGenerator.ts:46 | (random·2 - 1)·cap lies in [-cap, cap) |
| `LevelGenerator.BuildingCount` | app/utils/levelGenerator.ts:38 | between 5 and 12 buildings |
| `LevelGenerator.BuildingCountMonotone` | app/utils/levelGenerator.ts:38 | later levels never have fewer buildings |
| `LevelGenerator.MaxBuildingHeight` | app/utils/levelGenerator.ts:39-42 | the height cap is between 30% and 70% of the screen height |
| `LevelGenerator.MaxWindSpeed` | app/utils/levelGenerator.ts:45 | the wind cap is between 0.5 and 3 |
| `LevelGenerator.Wind` | app/utils/levelGenerator.ts:46 | the wind lies in [-cap, cap) |
| `LevelGenerator.BuildingHeight` | app/utils/levelGenerator.ts:53-56 | a building is at least 10% of the screen high and at most the larger of that and the cap |
| `LevelGenerator.MakeBuilding` | app/utils/levelGenerator.ts:50-65 | building i is one of count equal shares of the width, starts at i shares, stands on the bottom edge with the given height, takes a palette colour, and is undamaged |
| `LevelGenerator.TopCentre` | app/utils/levelGenerator.ts:76-85 | a player's spot is on the building's roof line, equally far from its left and right edges |
| `LevelGenerator.HumanIndex` | app/utils/levelGenerator.ts:70 | the human's building index is in the left third |
| `LevelGenerator.AIIndex` | app/utils/levelGenerator.ts:71 | the AI's building index is in the right third and at most count - 1 |
| `LevelGenerator.PlacementOrdered` | app/utils/levelGenerator.ts:70-71 | with at least three buildings the human's building is strictly left of the AI's, both in range |
| `LevelGenerator.Skyline` | app/utils/levelGenerator.ts:49-66 | building i has x = i·W/n and width W/n, stands on the bottom edge, has a height within the bounds, takes colour i mod 7, and is undamaged |
| `LevelGenerator.EqualSharesTile` | app/utils/levelGenerator.ts:50-61 | equal shares laid side by side from 0 tile [0, W] with no gap |
| `LevelGenerator.GenerateLevel` | app/utils/levelGenerator.ts:36-92 | the level count of buildings; wind within ±cap; human index < AI index; each player at the centre of its building's roof |
| `LevelGenerator.GeneratedTerrainTiles` | app/utils/levelGenerator.ts:49-66 | a generated skyline tiles the screen width |
| `LevelGenerator.FirstLevelOnSmallScreen` | app/utils/levelGenerator.ts:38-50 | level 1 on a 400-wide screen has five buildings 80 wide |
| `OpponentAI.OrDefault` | app/services/openAIService.ts:129 | JavaScript's falsy default on numbers: v unless v is zero, then d |
| `OpponentAI.LevelOrOne` | app/services/openAIService.ts:184 | an absent or zero level counts as 1, otherwise the level itself |
| `OpponentAI.Clamp` | app/services/openAIService.ts:190-193 | max(lo, min(hi, v)) lies in [lo, hi], is v inside it and the nearer end outside it |
| `OpponentAI.ClampMonotone` | app/services/openAIService.ts:190-193 | clamping preserves order |
| `OpponentAI.Noise` | app/services/openAIService.ts:186-187 | (random·2a - a)·s lies within ±a·abs(s) |
| `OpponentAI.NoiseScale` | app/services/openAIService.ts:181-184 | the noise scale has the sign of 1 - difficulty, is at most that in size, and is zero exactly at difficulty 1 |
| `OpponentAI.BaseAngle` | app/services/openAIService.ts:165-173 | level players aim at 45 plus the wind tilt; with dx > 0 an AI lower than its target aims above that and a higher one below it |
| `OpponentAI.FallbackDecision` | app/services/openAIService.ts:128-141 | without positions the angle is in [0, 90] and the speed in [10, 100] |
| `OpponentAI.AimDecision` | app/services/openAIService.ts:147-193 | with positions the angle is in [0, 90] and the speed in [20, 100], also when the players stand one above the other |
| `OpponentAI.MockAIDecision` | app/services/openAIService.ts:116-194 | angle in [0, 90]; speed in [10, 100] without positions and in [20, 100] with them |
| `OpponentAI.FallbackWithinNoise` | app/services/openAIService.ts:128-140 | without positions, each output lies within the clamped 45 ± 20r and 60 ± 20r, r = abs(1 - difficulty), a zero difficulty counting as 0.5 |
| `OpponentAI.ZeroDifficultyPlaysAsHalf` | app/services/openAIService.ts:129 | a falsy difficulty 0 plays exactly like 0.5 |
| `OpponentAI.AimWithinNoise` | app/services/openAIService.ts:151-193 | with positions, the angle lies within the clamped base ± 25·abs(s) and the speed within the clamped sqrt(dx)·7 ± 15·abs(s) |
| `OpponentAI.FullDifficultyIsDeterministic` | app/services/openAIService.ts:181-187 | at difficulty 1 the decision is the clamped base angle and speed, whatever the random draws |
| `OpponentAI.VerticallyAlignedSaturates` | app/services/openAIService.ts:168-170 | when dx = 0 and dy ≠ 0 the angle is 90 if the AI is lower and 0 if it is higher |
| `OpponentAI.IgnoresBuildings` | app/services/openAIService.ts:120-125 | the buildings handed to the AI never affect its decision |
| `OpponentAI.BaseAngleMonotone` | app/services/openAIService.ts:165-173 | with dx > 0, a higher target (larger dy = ai.y - human.y, y growing downward) never lowers the base angle |
| `OpponentAI.NoiseShrinksWithLevel` | app/services/openAIService.ts:181-184 | for difficulty ≤ 1 the noise scale is non-negative and shrinks as the level grows |
| `GameLoop.HandlePlayerHit` | app/index.tsx:296-315 | the shooter gains exactly one point and the other score is unchanged; a human shooter completes the level; nothing else changes |
| `GameLoop.Tick` | app/index.tsx:186-202 | with no moving shot nothing changes; a shot whose path is used up disappears and the turn passes to the shooter's opponent |
| `GameLoop.TickOutcome` | app/index.tsx:204-229 | the next point in the opponent's box scores one point for the shooter and ends the shot, the level completing on a human hit and the state kept on an AI hit, with turn, buildings, players, wind and level unchanged; else, inside a building, it damages the last containing building, ends the shot and passes the turn, with nothing else changed; else the shot advances one point and nothing else changes |
| `GameLoop.TickAdvances` | app/index.tsx:192-229 | each tick either ends the shot or advances it by exactly one point, and the ticks remaining fall by one |
| `GameLoop.ShotResolves` | app/index.tsx:186-235 | a well-formed shot has ended after at most `Remaining` ticks |
| `GameLoop.StaysResolved` | app/index.tsx:187 | with no shot in flight, ticks change nothing |
| `GameLoop.TickScores` | app/index.tsx:207-214 | scores never decrease, and one tick adds at most one point in total |
| `GameLoop.TickDamagesAtMostOne` | app/index.tsx:207-219 | a tick leaves the buildings alone or records one impact on one of them |
| `GameLoop.TickPreservesTiling` | app/index.tsx:217 | a tick keeps the terrain tiling the screen |
| `GameLoop.HandleFire` | app/index.tsx:333-337 | the button fires only on the human's turn with no shot in flight, launching the human's trajectory from index 0; otherwise nothing changes |
| `GameLoop.Difficulty` | app/index.tsx:132 | the AI's difficulty lies in [0.7, 0.95] |
| `GameLoop.DifficultyMonotone` | app/index.tsx:132 | the AI's difficulty never falls as the level rises |
| `GameLoop.AITurn` | app/index.tsx:125-147 | during play on the AI's turn, the AI asks `mockAIDecision` about the players, buildings, wind and level at difficulty `Difficulty(level)` and fires that aim (angle in [0, 90], speed in [20, 100]) from its own position as a mirrored shot; only the projectile changes; otherwise nothing changes |
| `GameLoop.FireProjectile` | app/index.tsx:164-183 | a new moving shot owned by the player on turn, at index 0, whose path is the trajectory from that player's position, mirrored for the AI; nothing else changes |
| `GameLoop.StandsOnTop` | app/utils/levelGenerator.ts:76-85 | a player at the centre of a roof lies in that building's collision rectangle |
| `LevelGenerator.ColumnsOrdered` | app/utils/levelGenerator.ts:59-61 | in equal-width columns, the lower index has its roof centre further left |
| `LevelGenerator.LeftColumnFirst` | app/utils/levelGenerator.ts:50-61 | in a skyline of positive width, a lower building index stands further left |
| `GameLoop.PlayersStandOnBuildings` | app/utils/levelGenerator.ts:68-85 | in a generated level each player stands inside its building's collision rectangle, and on a screen of positive width the human stands left of the AI |

## Left out

- Rendering, React components, animations, timers (`setInterval`, `setTimeout`) and the accelerometer tilt control are presentation; they are not modelled.
- `callOpenAI` and the remote-model decision path are network calls; only the local heuristic `mockAIDecision` is modelled.
- Floating point is not modelled: all arithmetic is exact over reals, and NaN and ±Infinity arise only where the model spells them out (the dx = 0 angle).
- `Math.cos`, `Math.sin` and `Math.sqrt` are parameters, so their values are not modelled. `Physics.LaunchMirrored` and `Physics.MirroredFlight` assume the two identities cos(180 - a) = -cos a and sin(180 - a) = sin a as preconditions.
- The banana's rotation angle (`Math.atan2`, app/utils/physics.ts:59) only drives the drawing; it is not part of a trajectory point in the model.
- The AI turn's `catch` fallback (random integer angle and speed, app/index.tsx:148-155) is left out: the local heuristic it guards cannot throw.
- `resetLevel` and `nextLevel` (app/index.tsx:318-330) and the level-start effect (app/index.tsx:84-91) are plain state resets; they are not modelled.
- The AI turn's `setAiDecision` only stores the aim for display, and its two `setTimeout` delays only pace the turn; `GameLoop.AITurn` fires the aim at once.
- The "Game Over" alert after an AI hit is a user dialog. The model leaves the state unchanged, which is what the code does until the user dismisses it.
- Collision.UpdateBuildings: requires an index below the number of buildings. In the code, an index past the end would append a building made from `undefined` fields. No caller can produce that index, since `CheckCollisions` only reports indices of existing buildings.
- OpponentAI.BaseAngle: requires dx ≠ 0 or dy = 0, because the division is undefined over the reals. The dx = 0, dy ≠ 0 case is modelled separately in `OpponentAI.AimDecision`.
- LevelGenerator.HumanIndex and LevelGenerator.AIIndex: require at least one building, which `BuildingCount` always provides.
- `SCREEN_WIDTH`/`SCREEN_HEIGHT` come from the window: the model takes them as a parameter, assumed non-negative.
- The model follows the code in three places: `mockAIDecision` has no guard against dx = 0, so it divides by zero and clamps the infinite angle; `generateLevel` does not reject a zero-width screen; the tick never collision-tests the trajectory's point 0, because it starts at `currentIndex + 1`.

=== FILE: collision.dfy ===
/** Collision resolution and terrain damage: the pure queries and updates
    the game applies to each sampled projectile point. */
module Collision {
  import opened Types

  /** Half-extent of a player's square hit box. */
  const HitBoxHalf: real := 15.0

  datatype HitType = PlayerHit | BuildingHit

  /** `buildingIndex` is -1 and `hitPosition` absent unless a building was hit. */
  datatype HitResult = HitResult(
    hit: bool,
    hitType: Option<HitType>,
    buildingIndex: int,
    hitPosition: Option<Position>)

  const NoHit: HitResult := HitResult(false, None, -1, None)

  /** The player a shot fired on `turn` can hit. */
  function Target(turn: PlayerType, players: PlayerPositions): (t: Position)
    ensures t == PositionOf(Opponent(turn), players)
  {
    if turn == Human then players.ai else players.human
  }

  /** The closed box target +- 15 on both axes. */
  predicate InHitBox(p: Position, target: Position) {
    && target.x - HitBoxHalf <= p.x <= target.x + HitBoxHalf
    && target.y - HitBoxHalf <= p.y <= target.y + HitBoxHalf
  }

  /** The closed rectangle [x, x + width] x [y, y + height]. */
  predicate InBuilding(p: Position, b: Building) {
    b.x <= p.x <= b.x + b.width && b.y <= p.y <= b.y + b.height
  }

  /** `k` is the largest index of a building containing `p`. */
  predicate IsLastMatch(bs: seq<Building>, p: Position, k: int) {
    && 0 <= k < |bs|
    && InBuilding(p, bs[k])
    && forall j :: k < j < |bs| ==> !InBuilding(p, bs[j])
  }

  /** The building scan from index `i` on: it never stops early, so every
      matching building overwrites what an earlier one recorded. */
  function Scan(bs: seq<Building>, p: Position, i: nat, acc: HitResult): (r: HitResult)
    requires i <= |bs|
    ensures (exists j :: i <= j < |bs| && InBuilding(p, bs[j])) ==>
      && r.hit && r.hitType == Some(BuildingHit) && r.hitPosition == Some(p)
      && i <= r.buildingIndex
      && IsLastMatch(bs, p, r.buildingIndex)
    ensures (forall j :: i <= j < |bs| ==> !InBuilding(p, bs[j])) ==> r == acc
    decreases |bs| - i
  {
    if i == |bs| then acc
    else
      var acc' := if InBuilding(p, bs[i]) then HitResult(true, Some(BuildingHit), i, Some(p)) else acc;
      Scan(bs, p, i + 1, acc')
  }

  /** Tests the opposing player's hit box first; only if it misses are the
      buildings scanned, and then the last matching building is reported. */
  function CheckCollisions(turn: PlayerType, players: PlayerPositions, bs: seq<Building>, p: Position): (r: HitResult)
    ensures InHitBox(p, PositionOf(Opponent(turn), players)) ==>
      r == HitResult(true, Some(PlayerHit), -1, None)
    ensures !InHitBox(p, PositionOf(Opponent(turn), players)) && (exists j :: 0 <= j < |bs| && InBuilding(p, bs[j])) ==>
      && r.hit && r.hitType == Some(BuildingHit) && r.hitPosition == Some(p)
      && IsLastMatch(bs, p, r.buildingIndex)
    ensures !InHitBox(p, PositionOf(Opponent(turn), players)) && (forall j :: 0 <= j < |bs| ==> !InBuilding(p, bs[j])) ==>
      r == NoHit
  {
    if InHitBox(p, Target(turn, players)) then NoHit.(hit := true, hitType := Some(PlayerHit))
    else Scan(bs, p, 0, NoHit)
  }

  /** Whenever the opponent's box and a building both contain the point, the player hit wins. */
  lemma PlayerHitTakesPrecedence(turn: PlayerType, players: PlayerPositions, bs: seq<Building>, p: Position, k: nat)
    requires InHitBox(p, PositionOf(Opponent(turn), players))
    requires k < |bs| && InBuilding(p, bs[k])
    ensures CheckCollisions(turn, players, bs, p).hitType == Some(PlayerHit)
    ensures CheckCollisions(turn, players, bs, p).buildingIndex == -1
  {
  }

  /** A world point in the coordinates of building `b`: origin at its top-left corner. */
  function ToLocal(b: Building, p: Position): (l: Position)
    ensures b.x + l.x == p.x && b.y + l.y == p.y
  {
    Position(p.x - b.x, p.y - b.y)
  }

  /** Records one hit on building `i`; a negative index leaves the terrain alone. */
  function UpdateBuildings(bs: seq<Building>, i: int, hit: Position): (r: seq<Building>)
    requires i < |bs|
    ensures i < 0 ==> r == bs
    ensures |r| == |bs|
    ensures forall j :: 0 <= j < |bs| && j != i ==> r[j] == bs[j]
    ensures 0 <= i ==>
      && r[i].damaged
      && SameShape(r[i], bs[i])
      && |r[i].damagePositions| == |bs[i].damagePositions| + 1
      && r[i].damagePositions[..|bs[i].damagePositions|] == bs[i].damagePositions
      && var d := r[i].damagePositions[|bs[i].damagePositions|];
         r[i].x + d.x == hit.x && r[i].y + d.y == hit.y
  {
    if i < 0 then bs
    else
      var b := bs[i];
      bs[i := b.(damaged := true, damagePositions := b.damagePositions + [ToLocal(b, hit)])]
  }

  /** Two hits on the same building are recorded in call order, each in that building's frame. */
  lemma DamageAccumulates(bs: seq<Building>, i: nat, p1: Position, p2: Position)
    requires i < |bs|
    ensures var twice := UpdateBuildings(UpdateBuildings(bs, i, p1), i, p2);
      && SameShape(twice[i], bs[i])
      && twice[i].damagePositions == bs[i].damagePositions + [ToLocal(bs[i], p1), ToLocal(bs[i], p2)]
  {
    var once := UpdateBuildings(bs, i, p1);
    var twice := UpdateBuildings(once, i, p2);
    assert once[i].damagePositions == bs[i].damagePositions + [ToLocal(bs[i], p1)];
    assert twice[i].damagePositions == once[i].damagePositions + [ToLocal(once[i], p2)];
    assert ToLocal(once[i], p2) == ToLocal(bs[i], p2);
  }

  /** A building hit reported by the resolver is recorded inside the building's own rectangle. */
  lemma RecordedDamageLiesInBuilding(turn: PlayerType, players: PlayerPositions, bs: seq<Building>, p: Position)
    requires CheckCollisions(turn, players, bs, p).hitType == Some(BuildingHit)
    ensures var h := CheckCollisions(turn, players, bs, p);
      && 0 <= h.buildingIndex < |bs|
      && var b := UpdateBuildings(bs, h.buildingIndex, h.hitPosition.value)[h.buildingIndex];
         var d := b.damagePositions[|b.damagePositions| - 1];
         0.0 <= d.x <= b.width && 0.0 <= d.y <= b.height
  {
    var h := CheckCollisions(turn, players, bs, p);
    assert !InHitBox(p, PositionOf(Opponent(turn), players));
    assert IsLastMatch(bs, p, h.buildingIndex);
  }

  /** Damage never changes the terrain's shape, so the tiling survives it. */
  lemma UpdatePreservesTiling(bs: seq<Building>, i: int, hit: Position, width: real)
    requires i < |bs|
    requires Tiles(bs, width)
    ensures Tiles(UpdateBuildings(bs, i, hit), width)
  {
    var r := UpdateBuildings(bs, i, hit);
    forall j | 0 <= j < |r| - 1
      ensures r[j].x + r[j].width == r[j + 1].x
    {
      assert r[j].x == bs[j].x && r[j].width == bs[j].width && r[j + 1].x == bs[j + 1].x;
    }
  }
}

=== FILE: game_loop.dfy ===
/** The round's bookkeeping around the simulation: firing, the per-tick
    projectile step with its collision handling, scoring, and the AI's
    turn. Each React state update becomes a pure function on `Game`. */
module GameLoop {
  import opened Types
  import Collision
  import Physics
  import OpponentAI
  import LevelGenerator

  /** A shot in flight; `currentIndex` is the trajectory point last shown. */
  datatype Projectile = Projectile(
    trajectory: seq<Position>,
    currentIndex: nat,
    isMoving: bool,
    owner: PlayerType)

  datatype Score = Score(human: nat, ai: nat)

  function ScoreOf(s: Score, who: PlayerType): nat {
    match who
    case Human => s.human
    case AI => s.ai
  }

  datatype Game = Game(
    state: GameState,
    level: nat,
    turn: PlayerType,
    score: Score,
    buildings: seq<Building>,
    players: PlayerPositions,
    wind: real,
    projectile: Option<Projectile>)

  /** A player hit: one point to the shooter; a human shooter completes the
      level. An AI shooter's game-over prompt is presentation and leaves the state. */
  function HandlePlayerHit(g: Game, shooter: PlayerType): (g': Game)
    ensures ScoreOf(g'.score, shooter) == ScoreOf(g.score, shooter) + 1
    ensures ScoreOf(g'.score, Opponent(shooter)) == ScoreOf(g.score, Opponent(shooter))
    ensures shooter == Human ==> g'.state == LevelComplete
    ensures shooter == AI ==> g'.state == g.state
    ensures g' == g.(score := g'.score, state := g'.state)
  {
    var score := if shooter == Human then g.score.(human := g.score.human + 1)
                 else g.score.(ai := g.score.ai + 1);
    g.(score := score, state := if shooter == Human then LevelComplete else g.state)
  }

  /** The projectile timer only runs while a shot is moving. */
  predicate InFlight(g: Game) {
    g.projectile.Some? && g.projectile.value.isMoving
  }

  /** No point is left after the one currently shown. */
  predicate Exhausted(p: Projectile) {
    p.currentIndex + 1 >= |p.trajectory|
  }

  predicate HitsSomeBuilding(bs: seq<Building>, pt: Position) {
    exists j :: 0 <= j < |bs| && Collision.InBuilding(pt, bs[j])
  }

  /** One timer tick: show the next point, or resolve the shot. The point is
      tested against the player not on turn, then against the buildings. */
  function Tick(g: Game): (g': Game)
    ensures !InFlight(g) ==> g' == g
    ensures InFlight(g) && Exhausted(g.projectile.value) ==>
      g' == g.(projectile := None, turn := Opponent(g.projectile.value.owner))
  {
    match g.projectile
    case None => g
    case Some(p) =>
      if !p.isMoving then g
      else if p.currentIndex + 1 >= |p.trajectory| then
        g.(projectile := None, turn := Opponent(p.owner))
      else
        var pt := p.trajectory[p.currentIndex + 1];
        var hit := Collision.CheckCollisions(g.turn, g.players, g.buildings, pt);
        if hit.hit then
          if hit.hitType == Some(Collision.PlayerHit) then
            HandlePlayerHit(g, p.owner).(projectile := None)
          else
            assert !Collision.InHitBox(pt, PositionOf(Opponent(g.turn), g.players));
            assert HitsSomeBuilding(g.buildings, pt);
            g.(buildings := Collision.UpdateBuildings(g.buildings, hit.buildingIndex, hit.hitPosition.value),
               projectile := None,
               turn := Opponent(p.owner))
        else
          g.(projectile := Some(p.(currentIndex := p.currentIndex + 1)))
  }

  /** What a tick does with the next point of a moving shot: a point in the
      target's hit box scores for the shooter and ends the shot; otherwise a
      point in some building damages the last such building, ends the shot
      and passes the turn; otherwise the shot moves on by one point. */
  lemma TickOutcome(g: Game)
    requires InFlight(g) && !Exhausted(g.projectile.value)
    ensures var g' := Tick(g);
      var p := g.projectile.value;
      var pt := p.trajectory[p.currentIndex + 1];
      if Collision.InHitBox(pt, PositionOf(Opponent(g.turn), g.players)) then
        && g'.projectile.None?
        && ScoreOf(g'.score, p.owner) == ScoreOf(g.score, p.owner) + 1
        && ScoreOf(g'.score, Opponent(p.owner)) == ScoreOf(g.score, Opponent(p.owner))
        && (p.owner == Human ==> g'.state == LevelComplete)
        && (p.owner == AI ==> g'.state == g.state)
        && g' == g.(score := g'.score, state := g'.state, projectile := None)
      else if HitsSomeBuilding(g.buildings, pt) then
        && g'.projectile.None?
        && g'.turn == Opponent(p.owner)
        && g' == g.(buildings := g'.buildings, projectile := None, turn := Opponent(p.owner))
        && forall k :: Collision.IsLastMatch(g.buildings, pt, k) ==>
             g'.buildings == Collision.UpdateBuildings(g.buildings, k, pt)
      else
        g' == g.(projectile := Some(p.(currentIndex := p.currentIndex + 1)))
  {
  }

  /** The index is on the trajectory, or the shot was fired with an empty one. */
  predicate ShotWellFormed(p: Projectile) {
    p.currentIndex < |p.trajectory| || p.currentIndex == 0
  }

  /** Ticks left before the shot must resolve. */
  function Remaining(p: Projectile): nat {
    if p.currentIndex < |p.trajectory| then |p.trajectory| - p.currentIndex else 1
  }

  /** A tick either resolves the shot or moves it one point on, keeping it well formed. */
  lemma TickAdvances(g: Game)
    requires InFlight(g) && ShotWellFormed(g.projectile.value)
    ensures var g' := Tick(g);
      var p := g.projectile.value;
      g'.projectile.None? ||
      (&& g'.projectile.value == p.(currentIndex := p.currentIndex + 1)
       && ShotWellFormed(g'.projectile.value)
       && Remaining(g'.projectile.value) == Remaining(p) - 1)
  {
  }

  /** `n` timer ticks. */
  function Run(g: Game, n: nat): Game
    decreases n
  {
    if n == 0 then g else Run(Tick(g), n - 1)
  }

  /** A well-formed shot is resolved after at most `Remaining` ticks. */
  lemma {:induction false} ShotResolves(g: Game)
    requires InFlight(g) && ShotWellFormed(g.projectile.value)
    ensures Run(g, Remaining(g.projectile.value)).projectile.None?
    decreases Remaining(g.projectile.value)
  {
    var p := g.projectile.value;
    var g' := Tick(g);
    TickAdvances(g);
    if g'.projectile.None? {
      StaysResolved(g', Remaining(p) - 1);
    } else {
      ShotResolves(g');
    }
  }

  /** Once no shot is in flight, ticks change nothing. */
  lemma {:induction false} StaysResolved(g: Game, n: nat)
    requires g.projectile.None?
    ensures Run(g, n) == g
    decreases n
  {
    if n > 0 {
      StaysResolved(Tick(g), n - 1);
    }
  }

  /** Scores never fall, and one tick adds at most one point in all. */
  lemma TickScores(g: Game)
    ensures ScoreOf(Tick(g).score, Human) >= ScoreOf(g.score, Human)
    ensures ScoreOf(Tick(g).score, AI) >= ScoreOf(g.score, AI)
    ensures Tick(g).score.human + Tick(g).score.ai <= g.score.human + g.score.ai + 1
  {
  }

  /** A tick leaves the buildings alone or records one impact on one of them. */
  lemma TickDamagesAtMostOne(g: Game)
    ensures Tick(g).buildings == g.buildings ||
      exists i, q :: i < |g.buildings| && Tick(g).buildings == Collision.UpdateBuildings(g.buildings, i, q)
  {
    if InFlight(g) && !Exhausted(g.projectile.value) {
      var p := g.projectile.value;
      var pt := p.trajectory[p.currentIndex + 1];
      var hit := Collision.CheckCollisions(g.turn, g.players, g.buildings, pt);
      if hit.hit && hit.hitType != Some(Collision.PlayerHit) {
        assert !Collision.InHitBox(pt, PositionOf(Opponent(g.turn), g.players));
        assert HitsSomeBuilding(g.buildings, pt);
        assert Tick(g).buildings == Collision.UpdateBuildings(g.buildings, hit.buildingIndex, hit.hitPosition.value);
      }
    }
  }

  /** Damage applied by a tick leaves the terrain's tiling intact. */
  lemma TickPreservesTiling(g: Game, width: real)
    requires Tiles(g.buildings, width)
    ensures Tiles(Tick(g).buildings, width)
  {
    TickDamagesAtMostOne(g);
    if Tick(g).buildings != g.buildings {
      var i, q :| i < |g.buildings| && Tick(g).buildings == Collision.UpdateBuildings(g.buildings, i, q);
      Collision.UpdatePreservesTiling(g.buildings, i, q, width);
    }
  }

  /** Starts a shot from the player on turn; the AI's angle is mirrored. */
  function FireProjectile(g: Game, angle: real, velocity: real, screen: Screen, trig: Physics.Trig): (g': Game)
    ensures InFlight(g')
    ensures var p := g'.projectile.value;
      && p.owner == g.turn && p.currentIndex == 0 && ShotWellFormed(p)
      && p.trajectory == Physics.Trajectory(PositionOf(g.turn, g.players), angle, velocity, g.wind,
                                            g.turn == AI, false, screen, trig)
    ensures g' == g.(projectile := g'.projectile)
  {
    var start := PositionOf(g.turn, g.players);
    var trajectory := Physics.Trajectory(start, angle, velocity, g.wind, g.turn == AI, false, screen, trig);
    g.(projectile := Some(Projectile(trajectory, 0, true, g.turn)))
  }

  /** The fire button works only on the human's turn with no shot in flight. */
  function HandleFire(g: Game, angle: real, velocity: real, screen: Screen, trig: Physics.Trig): (g': Game)
    ensures g.turn == Human && g.projectile.None? ==>
      && InFlight(g')
      && var p := g'.projectile.value;
      && p.owner == Human && p.currentIndex == 0 && ShotWellFormed(p)
      && p.trajectory == Physics.Trajectory(g.players.human, angle, velocity, g.wind, false, false, screen, trig)
      && g' == g.(projectile := g'.projectile)
    ensures !(g.turn == Human && g.projectile.None?) ==> g' == g
  {
    if g.turn == Human && g.projectile.None? then FireProjectile(g, angle, velocity, screen, trig) else g
  }

  /** min(0.7 + level * 0.03, 0.95). */
  function Difficulty(level: nat): (d: real)
    ensures 0.7 <= d <= 0.95
  {
    Min(0.7 + level as real * 0.03, 0.95)
  }

  /** The AI plays no worse on a later level. */
  lemma DifficultyMonotone(l1: nat, l2: nat)
    requires l1 <= l2
    ensures Difficulty(l1) <= Difficulty(l2)
  {
  }

  /** The AI's turn during play: it shows the heuristic the players, the
      buildings, the wind and the level, at a difficulty rising with the level,
      and fires the aim it returns from its own position. */
  function AITurn(g: Game, screen: Screen, trig: Physics.Trig, angleDraw: real, velocityDraw: real,
                  sqrt: real -> real): (g': Game)
    requires IsDraw(angleDraw) && IsDraw(velocityDraw)
    ensures g.turn == AI && g.state == Playing ==>
      var view := OpponentAI.AIGameState(Some(g.players), Some(g.buildings), g.wind, Some(g.level));
      var d := OpponentAI.MockAIDecision(view, Difficulty(g.level), angleDraw, velocityDraw, sqrt);
      && 0.0 <= d.angle <= 90.0 && 20.0 <= d.velocity <= 100.0
      && InFlight(g')
      && var p := g'.projectile.value;
      && p.owner == AI && p.currentIndex == 0 && ShotWellFormed(p)
      && p.trajectory == Physics.Trajectory(g.players.ai, d.angle, d.velocity, g.wind, true, false, screen, trig)
      && g' == g.(projectile := g'.projectile)
    ensures !(g.turn == AI && g.state == Playing) ==> g' == g
  {
    if g.turn == AI && g.state == Playing then
      var state := OpponentAI.AIGameState(Some(g.players), Some(g.buildings), g.wind, Some(g.level));
      var d := OpponentAI.MockAIDecision(state, Difficulty(g.level), angleDraw, velocityDraw, sqrt);
      FireProjectile(g, d.angle, d.velocity, screen, trig)
    else g
  }

  /** The centre of a building's top edge lies in its own collision rectangle. */
  lemma StandsOnTop(b: Building)
    requires b.width >= 0.0 && b.height >= 0.0
    ensures Collision.InBuilding(LevelGenerator.TopCentre(b), b)
  {
  }

  /** In a generated level each player stands inside its building's collision
      rectangle, and on a non-empty screen the human stands left of the AI. */
  lemma PlayersStandOnBuildings(level: nat, screen: Screen, windDraw: real, heightDraws: seq<real>,
                                humanDraw: real, aiDraw: real)
    requires ValidScreen(screen)
    requires IsDraw(windDraw) && IsDraw(humanDraw) && IsDraw(aiDraw)
    requires |heightDraws| == LevelGenerator.BuildingCount(level)
    requires forall i :: 0 <= i < |heightDraws| ==> IsDraw(heightDraws[i])
    ensures var d := LevelGenerator.GenerateLevel(level, screen, windDraw, heightDraws, humanDraw, aiDraw);
      var h := LevelGenerator.HumanIndex(|d.buildings|, humanDraw);
      var a := LevelGenerator.AIIndex(|d.buildings|, aiDraw);
      && 0 <= h < a < |d.buildings|
      && Collision.InBuilding(d.players.human, d.buildings[h])
      && Collision.InBuilding(d.players.ai, d.buildings[a])
      && (screen.width > 0.0 ==> d.players.human.x < d.players.ai.x)
  {
    var count := LevelGenerator.BuildingCount(level);
    var h := LevelGenerator.HumanIndex(count, humanDraw);
    var a := LevelGenerator.AIIndex(count, aiDraw);
    LevelGenerator.PlacementOrdered(count, humanDraw, aiDraw);
    var bs := LevelGenerator.Skyline(level, screen, heightDraws);
    LevelGenerator.ShareNonneg(screen.width, count);
    assert bs[h].width >= 0.0 && bs[h].height >= 0.1 * screen.height;
    assert bs[a].width >= 0.0 && bs[a].height >= 0.1 * screen.height;
    StandsOnTop(bs[h]);
    StandsOnTop(bs[a]);
    if screen.width > 0.0 {
      LevelGenerator.LeftColumnFirst(level, screen, heightDraws, h, a);
    }
  }
}

=== FILE: level_generator.dfy ===
/** Procedural level generation: a row of buildings tiling the screen
    width, the wind for the round, and one player on a building in each
    outer third. Every random draw is a parameter in [0, 1). */
module LevelGenerator {
  import opened Types

  lemma SpreadBound(s: real, cap: real)
    requires -1.0 <= s < 1.0 && cap > 0.0
    ensures -cap <= s * cap < cap
  {
    assert cap - s * cap == (1.0 - s) * cap;
    assert s * cap + cap == (s + 1.0) * cap;
  }

  lemma FloorBelow(r: real, bound: real)
    requires 0.0 <= r < bound
    ensures 0 <= r.Floor && (r.Floor as real) < bound
  {
  }

  /** draw * bound: a uniform value in [0, bound). */
  function Scaled(draw: real, bound: real): (r: real)
    requires IsDraw(draw) && bound >= 0.0
    ensures 0.0 <= r <= bound
    ensures bound > 0.0 ==> r < bound
  {
    ScaledBound(draw, bound);
    draw * bound
  }

  /** (draw * 2 - 1) * cap: a uniform value in [-cap, cap). */
  function Spread(draw: real, cap: real): (r: real)
    requires IsDraw(draw) && cap > 0.0
    ensures -cap <= r < cap
  {
    SpreadBound(draw * 2.0 - 1.0, cap);
    (draw * 2.0 - 1.0) * cap
  }

  /** min(5 + floor(level / 2), 12). */
  function BuildingCount(level: nat): (n: nat)
    ensures 5 <= n <= 12
  {
    if 5 + level / 2 <= 12 then 5 + level / 2 else 12
  }

  /** Higher levels never have fewer buildings. */
  lemma BuildingCountMonotone(l1: nat, l2: nat)
    requires l1 <= l2
    ensures BuildingCount(l1) <= BuildingCount(l2)
  {
  }

  /** The height cap grows by 2% of the screen per level from 30%, up to 70%. */
  function MaxBuildingHeight(level: nat, h: real): (m: real)
    requires h >= 0.0
    ensures 0.3 * h <= m <= 0.7 * h
  {
    assert level as real * h >= 0.0;
    Min(h * 0.3 + level as real * h * 0.02, h * 0.7)
  }

  /** The wind cap grows by 0.1 per level from 0.5, up to 3. */
  function MaxWindSpeed(level: nat): (w: real)
    ensures 0.5 <= w <= 3.0
  {
    Min(0.5 + level as real * 0.1, 3.0)
  }

  function Wind(level: nat, draw: real): (w: real)
    requires IsDraw(draw)
    ensures -MaxWindSpeed(level) <= w < MaxWindSpeed(level)
  {
    Spread(draw, MaxWindSpeed(level))
  }

  /** A uniform draw up to the level's cap, but never below 10% of the screen. */
  function BuildingHeight(level: nat, h: real, draw: real): (height: real)
    requires h >= 0.0 && IsDraw(draw)
    ensures 0.1 * h <= height <= Max(0.1 * h, MaxBuildingHeight(level, h))
  {
    Max(h * 0.1, Scaled(draw, MaxBuildingHeight(level, h)))
  }

  /** Building i of `count`: an equal share of the width, standing on the bottom edge. */
  function MakeBuilding(i: nat, count: nat, screen: Screen, height: real): (b: Building)
    requires count > 0
    ensures b.width * count as real == screen.width
    ensures b.x == i as real * b.width
    ensures b.height == height && b.y + b.height == screen.height
    ensures b.color in BuildingColors
    ensures !b.damaged && b.damagePositions == []
  {
    var width := screen.width / count as real;
    Building(i as real * width, screen.height - height, width, height,
             BuildingColors[i % |BuildingColors|], false, [])
  }

  /** floor(draw * count / 3): an index in the left third. */
  function HumanIndex(count: nat, draw: real): (i: nat)
    requires count > 0 && IsDraw(draw)
    ensures (i as real) < count as real / 3.0
    ensures i < count
  {
    var third := count as real / 3.0;
    FloorBelow(Scaled(draw, third), third);
    Scaled(draw, third).Floor
  }

  /** count - 1 - floor(draw * count / 3): an index in the right third. */
  function AIIndex(count: nat, draw: real): (i: int)
    requires count > 0 && IsDraw(draw)
    ensures (count - 1) as real - count as real / 3.0 < i as real
    ensures i <= count - 1
  {
    var third := count as real / 3.0;
    FloorBelow(Scaled(draw, third), third);
    count - 1 - Scaled(draw, third).Floor
  }

  /** With at least three buildings the human's building is strictly left of the AI's. */
  lemma PlacementOrdered(count: nat, humanDraw: real, aiDraw: real)
    requires count >= 3 && IsDraw(humanDraw) && IsDraw(aiDraw)
    ensures 0 <= HumanIndex(count, humanDraw) < AIIndex(count, aiDraw) < count
  {
    var c := count as real;
    assert (count - 1) as real - c / 3.0 >= c / 3.0;
  }

  /** The horizontal centre of a building's top edge, where a player stands. */
  function TopCentre(b: Building): (p: Position)
    ensures p.y == b.y
    ensures p.x - b.x == b.x + b.width - p.x
  {
    Position(b.x + b.width / 2.0, b.y)
  }

  datatype LevelData = LevelData(buildings: seq<Building>, players: PlayerPositions, wind: real)

  /** i*w + w = (i+1)*w, and count*(W/count) = W. */
  lemma TilingAlgebra(i: nat, count: nat, width: real)
    requires count > 0
    ensures i as real * (width / count as real) + width / count as real == (i + 1) as real * (width / count as real)
    ensures (count - 1) as real * (width / count as real) + width / count as real == width
  {
    var w := width / count as real;
    assert w * count as real == width;
  }

  /** The row of buildings: building i has the i-th height draw and an equal share of the width. */
  function Skyline(level: nat, screen: Screen, heightDraws: seq<real>): (bs: seq<Building>)
    requires ValidScreen(screen)
    requires |heightDraws| > 0
    requires forall i :: 0 <= i < |heightDraws| ==> IsDraw(heightDraws[i])
    ensures |bs| == |heightDraws|
    ensures forall i :: 0 <= i < |bs| ==>
      bs[i].x == i as real * (screen.width / |bs| as real) && bs[i].width == screen.width / |bs| as real
    ensures forall i :: 0 <= i < |bs| ==>
      && 0.1 * screen.height <= bs[i].height <= Max(0.1 * screen.height, MaxBuildingHeight(level, screen.height))
      && bs[i].y + bs[i].height == screen.height
    ensures forall i :: 0 <= i < |bs| ==>
      bs[i].color == BuildingColors[i % 7] && !bs[i].damaged && bs[i].damagePositions == []
  {
    var count := |heightDraws|;
    seq(count, i requires 0 <= i < count =>
      MakeBuilding(i, count, screen, BuildingHeight(level, screen.height, heightDraws[i])))
  }

  /** Equal shares laid side by side from 0 tile [0, width]. */
  lemma {:induction false} EqualSharesTile(bs: seq<Building>, width: real)
    requires |bs| > 0
    requires forall i :: 0 <= i < |bs| ==>
      bs[i].x == i as real * (width / |bs| as real) && bs[i].width == width / |bs| as real
    ensures Tiles(bs, width)
  {
    var count := |bs|;
    var w := width / count as real;
    forall i | 0 <= i < count - 1
      ensures bs[i].x + bs[i].width == bs[i + 1].x
    {
      assert bs[i].x == i as real * w && bs[i].width == w;
      assert bs[i + 1].x == (i + 1) as real * w;
      TilingAlgebra(i, count, width);
    }
    TilingAlgebra(0, count, width);
    assert bs[count - 1].x == (count - 1) as real * w;
  }

  function GenerateLevel(level: nat, screen: Screen, windDraw: real, heightDraws: seq<real>,
                         humanDraw: real, aiDraw: real): (d: LevelData)
    requires ValidScreen(screen)
    requires IsDraw(windDraw) && IsDraw(humanDraw) && IsDraw(aiDraw)
    requires |heightDraws| == BuildingCount(level)
    requires forall i :: 0 <= i < |heightDraws| ==> IsDraw(heightDraws[i])
    ensures d.buildings == Skyline(level, screen, heightDraws)
    ensures |d.buildings| == BuildingCount(level)
    ensures -MaxWindSpeed(level) <= d.wind < MaxWindSpeed(level)
    ensures var count := |d.buildings|;
      var h := HumanIndex(count, humanDraw);
      var a := AIIndex(count, aiDraw);
      && 0 <= h < a < count
      && d.players.human == TopCentre(d.buildings[h])
      && d.players.ai == TopCentre(d.buildings[a])
  {
    var count := BuildingCount(level);
    var w := Wind(level, windDraw);
    var buildings := Skyline(level, screen, heightDraws);
    PlacementOrdered(count, humanDraw, aiDraw);
    var h := HumanIndex(count, humanDraw);
    var a := AIIndex(count, aiDraw);
    LevelData(buildings, PlayerPositions(TopCentre(buildings[h]), TopCentre(buildings[a])), w)
  }

  /** A generated level's buildings tile the screen width. */
  lemma GeneratedTerrainTiles(level: nat, screen: Screen, windDraw: real, heightDraws: seq<real>,
                              humanDraw: real, aiDraw: real)
    requires ValidScreen(screen)
    requires IsDraw(windDraw) && IsDraw(humanDraw) && IsDraw(aiDraw)
    requires |heightDraws| == BuildingCount(level)
    requires forall i :: 0 <= i < |heightDraws| ==> IsDraw(heightDraws[i])
    ensures Tiles(GenerateLevel(level, screen, windDraw, heightDraws, humanDraw, aiDraw).buildings, screen.width)
  {
    EqualSharesTile(Skyline(level, screen, heightDraws), screen.width);
  }

  /** Level 1 on a 400 x 800 screen has exactly five buildings, each 80 wide. */
  lemma FirstLevelOnSmallScreen(windDraw: real, heightDraws: seq<real>, humanDraw: real, aiDraw: real)
    requires IsDraw(windDraw) && IsDraw(humanDraw) && IsDraw(aiDraw)
    requires |heightDraws| == 5
    requires forall i :: 0 <= i < |heightDraws| ==> IsDraw(heightDraws[i])
    ensures var d := GenerateLevel(1, Screen(400.0, 800.0), windDraw, heightDraws, humanDraw, aiDraw);
      && |d.buildings| == 5
      && forall i :: 0 <= i < 5 ==> d.buildings[i].width == 80.0
  {
    assert BuildingCount(1) == 5;
  }

  /** Two columns of equal positive width w at h*w and a*w, h < a: the first's top centre is further left. */
  lemma ColumnsOrdered(left: Building, right: Building, h: int, a: int, w: real)
    requires h < a && w > 0.0
    requires left.x == h as real * w && left.width == w
    requires right.x == a as real * w && right.width == w
    ensures TopCentre(left).x < TopCentre(right).x
  {
    assert a as real * w - h as real * w == (a - h) as real * w;
  }

  lemma ShareNonneg(width: real, count: nat)
    requires width >= 0.0 && count > 0
    ensures width / count as real >= 0.0
  {
  }

  /** In the skyline, a lower index stands further left when the screen has width. */
  lemma LeftColumnFirst(level: nat, screen: Screen, heightDraws: seq<real>, h: int, a: int)
    requires ValidScreen(screen) && screen.width > 0.0
    requires forall i :: 0 <= i < |heightDraws| ==> IsDraw(heightDraws[i])
    requires 0 <= h < a < |heightDraws|
    ensures var bs := Skyline(level, screen, heightDraws);
      TopCentre(bs[h]).x < TopCentre(bs[a]).x
  {
    var bs := Skyline(level, screen, heightDraws);
    var w := screen.width / |bs| as real;
    assert bs[h].x == h as real * w && bs[h].width == w;
    assert bs[a].x == a as real * w && bs[a].width == w;
    ColumnsOrdered(bs[h], bs[a], h, a, w);
  }
}

=== FILE: opponent.dfy ===
/** The scripted opponent's aim: a closed-form guess from the players'
    relative position and the wind, perturbed by difficulty-scaled noise
    and clamped to the input ranges. Random draws and the square root are
    supplied by the caller. */
module OpponentAI {
  import opened Types

  /** What the opponent is told about the round; `buildings` is carried but never read. */
  datatype AIGameState = AIGameState(
    playerPositions: Option<PlayerPositions>,
    buildings: Option<seq<Building>>,
    wind: real,
    currentLevel: Option<nat>)

  datatype AIDecision = AIDecision(angle: real, velocity: real)

  /** JavaScript's `v || d` on a number: zero is falsy and yields the default. */
  function OrDefault(v: real, d: real): (r: real)
    ensures v != 0.0 ==> r == v
    ensures v == 0.0 ==> r == d
  {
    if v == 0.0 then d else v
  }

  /** `currentLevel || 1`: an absent or zero level counts as level 1. */
  function LevelOrOne(level: Option<nat>): (n: nat)
    ensures n >= 1
    ensures level.Some? && level.value != 0 ==> n == level.value
    ensures level.None? || level.value == 0 ==> n == 1
  {
    if level.Some? && level.value != 0 then level.value else 1
  }

  /** Math.max(lo, Math.min(hi, v)): the point of [lo, hi] nearest to v. */
  function Clamp(lo: real, hi: real, v: real): (r: real)
    requires lo <= hi
    ensures lo <= r <= hi
    ensures lo <= v <= hi ==> r == v
    ensures v < lo ==> r == lo
    ensures v > hi ==> r == hi
  {
    Max(lo, Min(hi, v))
  }

  lemma ClampMonotone(lo: real, hi: real, a: real, b: real)
    requires lo <= hi && a <= b
    ensures Clamp(lo, hi, a) <= Clamp(lo, hi, b)
  {
  }

  lemma ProductBound(t: real, amplitude: real, scale: real)
    requires -amplitude <= t <= amplitude
    ensures -amplitude * Abs(scale) <= t * scale <= amplitude * Abs(scale)
  {
    if scale >= 0.0 {
      MulNonneg(amplitude - t, scale);
      MulNonneg(t + amplitude, scale);
    } else {
      MulNonneg(amplitude - t, -scale);
      MulNonneg(t + amplitude, -scale);
    }
  }

  /** (draw * 2a - a) * scale: noise of amplitude a, scaled. */
  function Noise(draw: real, amplitude: real, scale: real): (n: real)
    requires IsDraw(draw) && amplitude >= 0.0
    ensures -amplitude * Abs(scale) <= n <= amplitude * Abs(scale)
  {
    ScaledBound(draw, 2.0 * amplitude);
    ProductBound(draw * (2.0 * amplitude) - amplitude, amplitude, scale);
    (draw * (2.0 * amplitude) - amplitude) * scale
  }

  const PerfectAngle: real := 45.0
  const PerfectVelocity: real := 60.0

  /** Without player positions: 45 degrees and speed 60, each with up to
      +-20 noise scaled by 1 - (difficulty || 0.5). */
  function FallbackDecision(difficulty: real, angleDraw: real, velocityDraw: real): (d: AIDecision)
    requires IsDraw(angleDraw) && IsDraw(velocityDraw)
    ensures 0.0 <= d.angle <= 90.0 && 10.0 <= d.velocity <= 100.0
  {
    var randomness := 1.0 - OrDefault(difficulty, 0.5);
    AIDecision(
      Clamp(0.0, 90.0, PerfectAngle + Noise(angleDraw, 20.0, randomness)),
      Clamp(10.0, 100.0, PerfectVelocity + Noise(velocityDraw, 20.0, randomness)))
  }

  /** (1 - difficulty) / (1 + 0.1 * (currentLevel || 1)): the randomness
      1 - difficulty, damped by at least a factor 1.1. */
  function NoiseScale(difficulty: real, level: Option<nat>): (s: real)
    ensures difficulty <= 1.0 ==> 0.0 <= s <= 1.0 - difficulty
    ensures difficulty >= 1.0 ==> 1.0 - difficulty <= s <= 0.0
    ensures difficulty == 1.0 <==> s == 0.0
  {
    var damping := 1.0 + 0.1 * LevelOrOne(level) as real;
    assert damping >= 1.1;
    (1.0 - difficulty) / damping
  }

  /** 45 degrees, tilted by (dy / dx) * 30 when the heights differ, plus wind * 5:
      level players aim at 45 plus the wind tilt; with dx > 0 an AI standing
      lower than its target (dy > 0) aims above that, a higher one below it. */
  function BaseAngle(dx: real, dy: real, wind: real): (a: real)
    requires dx != 0.0 || dy == 0.0
    ensures dy == 0.0 ==> a == 45.0 + wind * 5.0
    ensures dx > 0.0 && dy > 0.0 ==> a > 45.0 + wind * 5.0
    ensures dx > 0.0 && dy < 0.0 ==> a < 45.0 + wind * 5.0
  {
    var elevation := if dy != 0.0 then (dy / dx) * 30.0 else 0.0;
    45.0 + elevation + wind * 5.0
  }

  /** sqrt(dx) * 7: speed grows with the horizontal distance. */
  function BaseVelocity(dx: real, sqrt: real -> real): real {
    sqrt(dx) * 7.0
  }

  function HorizontalDistance(p: PlayerPositions): real {
    Abs(p.ai.x - p.human.x)
  }

  /** Positive when the AI stands lower on screen than the human. */
  function HeightDifference(p: PlayerPositions): real {
    p.ai.y - p.human.y
  }

  /** With player positions. When the players stand one above the other
      (dx = 0, dy != 0) the source divides by zero; the infinite angle it
      gets clamps to 90 when dy > 0 and to 0 when dy < 0. */
  function AimDecision(p: PlayerPositions, wind: real, level: Option<nat>, difficulty: real,
                       angleDraw: real, velocityDraw: real, sqrt: real -> real): (d: AIDecision)
    requires IsDraw(angleDraw) && IsDraw(velocityDraw)
    ensures 0.0 <= d.angle <= 90.0 && 20.0 <= d.velocity <= 100.0
  {
    var dx := HorizontalDistance(p);
    var dy := HeightDifference(p);
    var s := NoiseScale(difficulty, level);
    var velocity := Clamp(20.0, 100.0, BaseVelocity(dx, sqrt) + Noise(velocityDraw, 15.0, s));
    if dx == 0.0 && dy != 0.0 then
      AIDecision(if dy > 0.0 then 90.0 else 0.0, velocity)
    else
      AIDecision(Clamp(0.0, 90.0, BaseAngle(dx, dy, wind) + Noise(angleDraw, 25.0, s)), velocity)
  }

  function MockAIDecision(state: AIGameState, difficulty: real, angleDraw: real, velocityDraw: real,
                          sqrt: real -> real): (d: AIDecision)
    requires IsDraw(angleDraw) && IsDraw(velocityDraw)
    ensures 0.0 <= d.angle <= 90.0
    ensures state.playerPositions.None? ==> 10.0 <= d.velocity <= 100.0
    ensures state.playerPositions.Some? ==> 20.0 <= d.velocity <= 100.0
  {
    match state.playerPositions
    case None => FallbackDecision(difficulty, angleDraw, velocityDraw)
    case Some(p) => AimDecision(p, state.wind, state.currentLevel, difficulty, angleDraw, velocityDraw, sqrt)
  }

  /** Without positions, each output stays within the clamped 45 +- 20r and 60 +- 20r,
      where r = |1 - (difficulty || 0.5)|. */
  lemma FallbackWithinNoise(state: AIGameState, difficulty: real, angleDraw: real, velocityDraw: real,
                            sqrt: real -> real)
    requires IsDraw(angleDraw) && IsDraw(velocityDraw)
    requires state.playerPositions.None?
    ensures var d := MockAIDecision(state, difficulty, angleDraw, velocityDraw, sqrt);
      var r := Abs(1.0 - OrDefault(difficulty, 0.5));
      && Clamp(0.0, 90.0, 45.0 - 20.0 * r) <= d.angle <= Clamp(0.0, 90.0, 45.0 + 20.0 * r)
      && Clamp(10.0, 100.0, 60.0 - 20.0 * r) <= d.velocity <= Clamp(10.0, 100.0, 60.0 + 20.0 * r)
  {
    var randomness := 1.0 - OrDefault(difficulty, 0.5);
    var r := Abs(randomness);
    var na := Noise(angleDraw, 20.0, randomness);
    var nv := Noise(velocityDraw, 20.0, randomness);
    ClampMonotone(0.0, 90.0, 45.0 - 20.0 * r, 45.0 + na);
    ClampMonotone(0.0, 90.0, 45.0 + na, 45.0 + 20.0 * r);
    ClampMonotone(10.0, 100.0, 60.0 - 20.0 * r, 60.0 + nv);
    ClampMonotone(10.0, 100.0, 60.0 + nv, 60.0 + 20.0 * r);
  }

  /** Without positions a difficulty of 0 is falsy and plays exactly like 0.5. */
  lemma ZeroDifficultyPlaysAsHalf(state: AIGameState, angleDraw: real, velocityDraw: real, sqrt: real -> real)
    requires IsDraw(angleDraw) && IsDraw(velocityDraw)
    requires state.playerPositions.None?
    ensures MockAIDecision(state, 0.0, angleDraw, velocityDraw, sqrt)
         == MockAIDecision(state, 0.5, angleDraw, velocityDraw, sqrt)
  {
  }

  /** With positions and a finite base angle, each output stays within the
      clamped base +- 25|s| (angle) and sqrt(dx)*7 +- 15|s| (speed),
      where s = (1 - difficulty) / (1 + 0.1 * (currentLevel || 1)). */
  lemma AimWithinNoise(state: AIGameState, difficulty: real, angleDraw: real, velocityDraw: real,
                       sqrt: real -> real)
    requires IsDraw(angleDraw) && IsDraw(velocityDraw)
    requires state.playerPositions.Some?
    requires HorizontalDistance(state.playerPositions.value) != 0.0 || HeightDifference(state.playerPositions.value) == 0.0
    ensures var p := state.playerPositions.value;
      var d := MockAIDecision(state, difficulty, angleDraw, velocityDraw, sqrt);
      var dx := HorizontalDistance(p);
      var base := BaseAngle(dx, HeightDifference(p), state.wind);
      var s := Abs(NoiseScale(difficulty, state.currentLevel));
      && Clamp(0.0, 90.0, base - 25.0 * s) <= d.angle <= Clamp(0.0, 90.0, base + 25.0 * s)
      && Clamp(20.0, 100.0, sqrt(dx) * 7.0 - 15.0 * s) <= d.velocity <= Clamp(20.0, 100.0, sqrt(dx) * 7.0 + 15.0 * s)
  {
    var p := state.playerPositions.value;
    var dx := HorizontalDistance(p);
    var base := BaseAngle(dx, HeightDifference(p), state.wind);
    var scale := NoiseScale(difficulty, state.currentLevel);
    var s := Abs(scale);
    var na := Noise(angleDraw, 25.0, scale);
    var nv := Noise(velocityDraw, 15.0, scale);
    ClampMonotone(0.0, 90.0, base - 25.0 * s, base + na);
    ClampMonotone(0.0, 90.0, base + na, base + 25.0 * s);
    ClampMonotone(20.0, 100.0, sqrt(dx) * 7.0 - 15.0 * s, sqrt(dx) * 7.0 + nv);
    ClampMonotone(20.0, 100.0, sqrt(dx) * 7.0 + nv, sqrt(dx) * 7.0 + 15.0 * s);
  }

  /** At difficulty 1 there is no noise: the aim is the clamped base angle and speed. */
  lemma FullDifficultyIsDeterministic(state: AIGameState, angleDraw: real, velocityDraw: real, sqrt: real -> real)
    requires IsDraw(angleDraw) && IsDraw(velocityDraw)
    requires state.playerPositions.Some?
    requires HorizontalDistance(state.playerPositions.value) != 0.0 || HeightDifference(state.playerPositions.value) == 0.0
    ensures var p := state.playerPositions.value;
      var dx := HorizontalDistance(p);
      MockAIDecision(state, 1.0, angleDraw, velocityDraw, sqrt)
        == AIDecision(Clamp(0.0, 90.0, BaseAngle(dx, HeightDifference(p), state.wind)),
                      Clamp(20.0, 100.0, sqrt(dx) * 7.0))
  {
    var p := state.playerPositions.value;
    assert NoiseScale(1.0, state.currentLevel) == 0.0;
  }

  /** Players one above the other: the angle saturates, straight up when the AI is lower. */
  lemma VerticallyAlignedSaturates(state: AIGameState, difficulty: real, angleDraw: real, velocityDraw: real,
                                   sqrt: real -> real)
    requires IsDraw(angleDraw) && IsDraw(velocityDraw)
    requires state.playerPositions.Some?
    requires HorizontalDistance(state.playerPositions.value) == 0.0
    requires HeightDifference(state.playerPositions.value) != 0.0
    ensures MockAIDecision(state, difficulty, angleDraw, velocityDraw, sqrt).angle
         == if HeightDifference(state.playerPositions.value) > 0.0 then 90.0 else 0.0
  {
  }

  /** The decision never depends on the buildings it is handed. */
  lemma IgnoresBuildings(state: AIGameState, buildings: Option<seq<Building>>, difficulty: real,
                         angleDraw: real, velocityDraw: real, sqrt: real -> real)
    requires IsDraw(angleDraw) && IsDraw(velocityDraw)
    ensures MockAIDecision(state.(buildings := buildings), difficulty, angleDraw, velocityDraw, sqrt)
         == MockAIDecision(state, difficulty, angleDraw, velocityDraw, sqrt)
  {
  }

  /** A higher target (larger dy = ai.y - human.y, y growing downward) never lowers the base angle. */
  lemma BaseAngleMonotone(dx: real, dy1: real, dy2: real, wind: real)
    requires dx > 0.0 && dy1 <= dy2
    ensures BaseAngle(dx, dy1, wind) <= BaseAngle(dx, dy2, wind)
  {
    assert dy1 / dx <= dy2 / dx by {
      assert dy2 / dx - dy1 / dx == (dy2 - dy1) / dx;
    }
  }

  /** For a difficulty of at most 1, the noise shrinks as the level grows. */
  lemma NoiseShrinksWithLevel(difficulty: real, l1: nat, l2: nat)
    requires difficulty <= 1.0
    requires 1 <= l1 <= l2
    ensures 0.0 <= NoiseScale(difficulty, Some(l2)) <= NoiseScale(difficulty, Some(l1))
  {
    var a := 1.0 - difficulty;
    var d1 := 1.0 + 0.1 * l1 as real;
    var d2 := 1.0 + 0.1 * l2 as real;
    assert a / d2 <= a / d1 by {
      assert a / d1 - a / d2 == a * (d2 - d1) / (d1 * d2);
    }
  }
}

=== FILE: physics.dfy ===
/** The trajectory integrator: a bounded explicit-Euler flight under
    gravity and wind, sampled until the projectile leaves the screen or
    the point cap is reached. Trigonometry is supplied by the caller. */
module Physics {
  import opened Types

  const Gravity: real := 0.2
  /** Horizontal velocity gained from the wind on every step, per unit of wind. */
  const WindDrift: real := 0.01

  function MaxPoints(isPreview: bool): (n: nat)
    ensures isPreview ==> n == 20
    ensures !isPreview ==> n == 500
  {
    if isPreview then 20 else 500
  }

  /** The preview integrates with the coarser step. */
  function TimeStep(isPreview: bool): (dt: real)
    ensures dt > 0.0
    ensures isPreview ==> dt == 0.5
    ensures !isPreview ==> dt == 0.1
  {
    if isPreview then 0.5 else 0.1
  }

  /** Cosine and sine of an angle given in degrees. */
  datatype Trig = Trig(cosDeg: real -> real, sinDeg: real -> real)

  datatype Velocity = Velocity(vx: real, vy: real)

  /** The AI fires leftward: its angle is mirrored about the vertical. */
  function EffectiveAngle(angle: real, isAI: bool): real {
    if isAI then 180.0 - angle else angle
  }

  /** The launch velocity; vy is negated because y grows downward. */
  function Launch(angle: real, velocity: real, isAI: bool, trig: Trig): Velocity {
    var a := EffectiveAngle(angle, isAI);
    Velocity(velocity * trig.cosDeg(a), -velocity * trig.sinDeg(a))
  }

  /** A positive speed at an angle with positive sine goes up the screen, and
      the horizontal direction follows the sign of the cosine. */
  lemma LaunchDirection(angle: real, velocity: real, isAI: bool, trig: Trig)
    requires velocity > 0.0
    ensures var a := EffectiveAngle(angle, isAI);
      var v := Launch(angle, velocity, isAI, trig);
      && (trig.sinDeg(a) > 0.0 ==> v.vy < 0.0)
      && (trig.cosDeg(a) > 0.0 ==> v.vx > 0.0)
      && (trig.cosDeg(a) < 0.0 ==> v.vx < 0.0)
  {
  }

  /** For a trigonometry with cos^2 + sin^2 = 1 the launch speed is the given one. */
  lemma LaunchSpeed(angle: real, velocity: real, isAI: bool, trig: Trig)
    requires var a := EffectiveAngle(angle, isAI);
      trig.cosDeg(a) * trig.cosDeg(a) + trig.sinDeg(a) * trig.sinDeg(a) == 1.0
    ensures var v := Launch(angle, velocity, isAI, trig);
      v.vx * v.vx + v.vy * v.vy == velocity * velocity
  {
    var a := EffectiveAngle(angle, isAI);
    var c, s := trig.cosDeg(a), trig.sinDeg(a);
    calc {
      (velocity * c) * (velocity * c) + (-velocity * s) * (-velocity * s);
      velocity * velocity * (c * c + s * s);
    }
  }

  /** With cos(180 - a) = -cos(a) and sin(180 - a) = sin(a), the AI's launch is
      the human's reflected: horizontal component negated, vertical unchanged. */
  lemma LaunchMirrored(angle: real, velocity: real, trig: Trig)
    requires trig.cosDeg(180.0 - angle) == -trig.cosDeg(angle)
    requires trig.sinDeg(180.0 - angle) == trig.sinDeg(angle)
    ensures Launch(angle, velocity, true, trig).vx == -Launch(angle, velocity, false, trig).vx
    ensures Launch(angle, velocity, true, trig).vy == Launch(angle, velocity, false, trig).vy
  {
  }

  /** The integrator's state: position, elapsed time and current horizontal velocity. */
  datatype Flight = Flight(x: real, y: real, t: real, vx: real)

  /** One Euler step: wind drift is added to the horizontal velocity before
      the move, and gravity acts with the time before the move. */
  function Step(f: Flight, vy: real, wind: real, dt: real): Flight {
    var vx := f.vx + wind * WindDrift;
    Flight(f.x + vx * dt, f.y + (vy + Gravity * f.t) * dt, f.t + dt, vx)
  }

  /** The state after `k` steps from the launch point. */
  function FlightAfter(start: Position, v: Velocity, wind: real, dt: real, k: nat): Flight {
    if k == 0 then Flight(start.x, start.y, 0.0, v.vx)
    else Step(FlightAfter(start, v, wind, dt, k - 1), v.vy, wind, dt)
  }

  function PositionAfter(start: Position, v: Velocity, wind: real, dt: real, k: nat): Position {
    var f := FlightAfter(start, v, wind, dt, k);
    Position(f.x, f.y)
  }

  /** Horizontal closed form advanced by one step (pure algebra, no state). */
  lemma XStepAlgebra(x0: real, vx: real, c: real, dt: real, m: real)
    ensures (x0 + m * vx * dt + c * dt * (m * (m + 1.0) / 2.0)) + (vx + m * c + c) * dt
         == x0 + (m + 1.0) * vx * dt + c * dt * ((m + 1.0) * (m + 2.0) / 2.0)
  {
  }

  /** Vertical closed form advanced by one step (pure algebra, no state). */
  lemma YStepAlgebra(y0: real, vy: real, g: real, dt: real, m: real)
    ensures (y0 + m * vy * dt + g * dt * dt * (m * (m - 1.0) / 2.0)) + (vy + g * (m * dt)) * dt
         == y0 + (m + 1.0) * vy * dt + g * dt * dt * ((m + 1.0) * m / 2.0)
  {
  }

  /** After k steps the clock reads k*dt. */
  lemma {:induction false} ElapsedTime(start: Position, v: Velocity, wind: real, dt: real, k: nat)
    ensures FlightAfter(start, v, wind, dt, k).t == k as real * dt
  {
    if k > 0 {
      ElapsedTime(start, v, wind, dt, k - 1);
      var m := (k - 1) as real;
      assert m * dt + dt == (m + 1.0) * dt;
    }
  }

  /** After k steps the wind has added k*wind*0.01 to the horizontal velocity. */
  lemma {:induction false} WindDriftAccumulates(start: Position, v: Velocity, wind: real, dt: real, k: nat)
    ensures FlightAfter(start, v, wind, dt, k).vx == v.vx + k as real * (WindDrift * wind)
  {
    if k > 0 {
      WindDriftAccumulates(start, v, wind, dt, k - 1);
      var m := (k - 1) as real;
      var c := WindDrift * wind;
      assert m * c + c == (m + 1.0) * c;
    }
  }

  /** Closed form of the horizontal position: x0 + k*vx*dt + wind*0.01*dt*k(k+1)/2. */
  lemma {:induction false} HorizontalClosedForm(start: Position, v: Velocity, wind: real, dt: real, k: nat)
    ensures var n := k as real;
      FlightAfter(start, v, wind, dt, k).x
        == start.x + n * v.vx * dt + (WindDrift * wind) * dt * (n * (n + 1.0) / 2.0)
  {
    if k > 0 {
      HorizontalClosedForm(start, v, wind, dt, k - 1);
      WindDriftAccumulates(start, v, wind, dt, k - 1);
      var m := (k - 1) as real;
      XStepAlgebra(start.x, v.vx, WindDrift * wind, dt, m);
    }
  }

  /** Closed form of the vertical position: y0 + k*vy*dt + g*dt^2*k(k-1)/2. */
  lemma {:induction false} VerticalClosedForm(start: Position, v: Velocity, wind: real, dt: real, k: nat)
    ensures var n := k as real;
      FlightAfter(start, v, wind, dt, k).y
        == start.y + n * v.vy * dt + Gravity * dt * dt * (n * (n - 1.0) / 2.0)
  {
    if k > 0 {
      VerticalClosedForm(start, v, wind, dt, k - 1);
      ElapsedTime(start, v, wind, dt, k - 1);
      var m := (k - 1) as real;
      YStepAlgebra(start.y, v.vy, Gravity, dt, m);
    }
  }

  /** The number of points produced: the first `k` at which the position
      before step `k` is off screen, or the cap. */
  function PointCount(start: Position, v: Velocity, wind: real, dt: real, cap: nat, screen: Screen, k: nat): (n: nat)
    requires k <= cap
    ensures k <= n <= cap
    ensures forall j :: k <= j < n ==> OnScreen(PositionAfter(start, v, wind, dt, j), screen)
    ensures n == cap || !OnScreen(PositionAfter(start, v, wind, dt, n), screen)
    decreases cap - k
  {
    if k == cap || !OnScreen(PositionAfter(start, v, wind, dt, k), screen) then k
    else PointCount(start, v, wind, dt, cap, screen, k + 1)
  }

  /** Any count satisfying the stopping rule from `k` on is the one `PointCount` finds. */
  lemma {:induction false} PointCountUnique(start: Position, v: Velocity, wind: real, dt: real, cap: nat, screen: Screen, k: nat, n: nat)
    requires k <= n <= cap
    requires forall j :: k <= j < n ==> OnScreen(PositionAfter(start, v, wind, dt, j), screen)
    requires n == cap || !OnScreen(PositionAfter(start, v, wind, dt, n), screen)
    ensures PointCount(start, v, wind, dt, cap, screen, k) == n
    decreases n - k
  {
    if k < n {
      PointCountUnique(start, v, wind, dt, cap, screen, k + 1, n);
    }
  }

  /** The trajectory: point k is the position after k + 1 steps. */
  function Trajectory(start: Position, angle: real, velocity: real, wind: real, isAI: bool, isPreview: bool,
                      screen: Screen, trig: Trig): (r: seq<Position>)
    ensures |r| <= MaxPoints(isPreview)
    ensures !OnScreen(start, screen) ==> r == []
    ensures forall i :: 0 <= i < |r| - 1 ==> OnScreen(r[i], screen)
    ensures 0 < |r| < MaxPoints(isPreview) ==> !OnScreen(r[|r| - 1], screen)
    ensures OnScreen(start, screen) ==> |r| > 0
  {
    var v := Launch(angle, velocity, isAI, trig);
    var dt := TimeStep(isPreview);
    var n := PointCount(start, v, wind, dt, MaxPoints(isPreview), screen, 0);
    seq(n, k requires 0 <= k < n => PositionAfter(start, v, wind, dt, k + 1))
  }

  /** Point k of the trajectory is the position after k + 1 steps. */
  lemma TrajectoryPoint(start: Position, angle: real, velocity: real, wind: real, isAI: bool,
                        isPreview: bool, screen: Screen, trig: Trig, k: nat)
    requires k < |Trajectory(start, angle, velocity, wind, isAI, isPreview, screen, trig)|
    ensures Trajectory(start, angle, velocity, wind, isAI, isPreview, screen, trig)[k]
         == PositionAfter(start, Launch(angle, velocity, isAI, trig), wind, TimeStep(isPreview), k + 1)
  {
  }

  /** The horizontal velocity used by step k (counting from 0): the launch
      value plus k + 1 wind increments. */
  function StepVX(v: Velocity, wind: real, k: nat): real {
    v.vx + (k + 1) as real * (WindDrift * wind)
  }

  /** The vertical velocity used by step k: the launch value plus gravity
      times the time elapsed before the step. */
  function StepVY(v: Velocity, dt: real, k: nat): real {
    v.vy + Gravity * (k as real * dt)
  }

  /** Step k applied to point p: the point moves by the step's velocities times dt. */
  function Advance(p: Position, v: Velocity, wind: real, dt: real, k: nat): Position {
    Position(p.x + StepVX(v, wind, k) * dt, p.y + StepVY(v, dt, k) * dt)
  }

  /** Step k of the flight, written against the position before it: the
      horizontal velocity used is vx + (k+1)*wind*0.01 and the time is k*dt. */
  lemma StepFrom(start: Position, v: Velocity, wind: real, dt: real, k: nat)
    ensures PositionAfter(start, v, wind, dt, k + 1) == Advance(PositionAfter(start, v, wind, dt, k), v, wind, dt, k)
  {
    WindDriftAccumulates(start, v, wind, dt, k);
    ElapsedTime(start, v, wind, dt, k);
    var c := WindDrift * wind;
    var n := k as real;
    var f := FlightAfter(start, v, wind, dt, k);
    assert FlightAfter(start, v, wind, dt, k + 1) == Step(f, v.vy, wind, dt);
    assert f.vx + wind * WindDrift == StepVX(v, wind, k) by {
      assert v.vx + n * c + wind * WindDrift == v.vx + (n + 1.0) * c;
    }
    assert v.vy + Gravity * f.t == StepVY(v, dt, k);
  }

  /** A sequence with the right length and the right points is the trajectory. */
  lemma TrajectoryExtensional(start: Position, angle: real, velocity: real, wind: real, isAI: bool,
                              isPreview: bool, screen: Screen, trig: Trig, r: seq<Position>)
    requires var v := Launch(angle, velocity, isAI, trig);
      var dt := TimeStep(isPreview);
      && |r| == PointCount(start, v, wind, dt, MaxPoints(isPreview), screen, 0)
      && forall k :: 0 <= k < |r| ==> r[k] == PositionAfter(start, v, wind, dt, k + 1)
    ensures r == Trajectory(start, angle, velocity, wind, isAI, isPreview, screen, trig)
  {
  }

  /** The first step starts at rest in time: it moves by (vx + wind*0.01)*dt across and vy*dt down. */
  lemma FirstStep(start: Position, v: Velocity, wind: real, dt: real)
    ensures PositionAfter(start, v, wind, dt, 1) == Position(start.x + (v.vx + WindDrift * wind) * dt, start.y + v.vy * dt)
  {
    var f0 := FlightAfter(start, v, wind, dt, 0);
    assert f0 == Flight(start.x, start.y, 0.0, v.vx);
    assert FlightAfter(start, v, wind, dt, 1) == Step(f0, v.vy, wind, dt);
    assert (v.vy + Gravity * 0.0) * dt == v.vy * dt;
  }

  /** Consecutive points differ by one Euler step: wind is added to the
      horizontal velocity before moving, and gravity uses the time before the move. */
  lemma {:induction false} TrajectorySteps(start: Position, angle: real, velocity: real, wind: real, isAI: bool,
                                           isPreview: bool, screen: Screen, trig: Trig)
    ensures var r := Trajectory(start, angle, velocity, wind, isAI, isPreview, screen, trig);
      forall k :: 0 < k < |r| ==>
        r[k] == Advance(r[k - 1], Launch(angle, velocity, isAI, trig), wind, TimeStep(isPreview), k)
  {
    var r := Trajectory(start, angle, velocity, wind, isAI, isPreview, screen, trig);
    forall k | 0 < k < |r|
      ensures r[k] == Advance(r[k - 1], Launch(angle, velocity, isAI, trig), wind, TimeStep(isPreview), k)
    {
      TrajectoryPoint(start, angle, velocity, wind, isAI, isPreview, screen, trig, k);
      TrajectoryPoint(start, angle, velocity, wind, isAI, isPreview, screen, trig, k - 1);
      StepFrom(start, Launch(angle, velocity, isAI, trig), wind, TimeStep(isPreview), k);
    }
  }

  /** Without wind, the AI's flight from a point is the human's at the same
      angle reflected about the vertical line through that point. */
  lemma {:induction false} MirroredFlight(start: Position, angle: real, velocity: real, dt: real, k: nat, trig: Trig)
    requires trig.cosDeg(180.0 - angle) == -trig.cosDeg(angle)
    requires trig.sinDeg(180.0 - angle) == trig.sinDeg(angle)
    ensures var ai := FlightAfter(start, Launch(angle, velocity, true, trig), 0.0, dt, k);
      var human := FlightAfter(start, Launch(angle, velocity, false, trig), 0.0, dt, k);
      && ai.x - start.x == -(human.x - start.x)
      && ai.y == human.y
      && ai.vx == -human.vx
      && ai.t == human.t
  {
    LaunchMirrored(angle, velocity, trig);
    if k > 0 {
      MirroredFlight(start, angle, velocity, dt, k - 1, trig);
      var ai := FlightAfter(start, Launch(angle, velocity, true, trig), 0.0, dt, k - 1);
      var human := FlightAfter(start, Launch(angle, velocity, false, trig), 0.0, dt, k - 1);
      MirrorStep(start.x, ai, human, Launch(angle, velocity, true, trig).vy, dt);
    }
  }

  /** A windless step keeps two reflected flight states reflected. */
  lemma MirrorStep(x0: real, ai: Flight, human: Flight, vy: real, dt: real)
    requires ai.x - x0 == -(human.x - x0) && ai.y == human.y && ai.vx == -human.vx && ai.t == human.t
    ensures var a := Step(ai, vy, 0.0, dt);
      var h := Step(human, vy, 0.0, dt);
      a.x - x0 == -(h.x - x0) && a.y == h.y && a.vx == -h.vx && a.t == h.t
  {
    var va := ai.vx + 0.0 * WindDrift;
    var vh := human.vx + 0.0 * WindDrift;
    assert va == -vh;
    assert va * dt == -(vh * dt);
    assert Step(ai, vy, 0.0, dt).x == ai.x + va * dt;
    assert Step(human, vy, 0.0, dt).x == human.x + vh * dt;
  }

  /** The integration loop. The position is tested before each step, so the
      point that first leaves the screen is still pushed, and nothing after it. */
  method CalculateTrajectory(start: Position, angle: real, velocity: real, wind: real, isAI: bool, isPreview: bool,
                             screen: Screen, trig: Trig) returns (trajectory: seq<Position>)
    ensures trajectory == Trajectory(start, angle, velocity, wind, isAI, isPreview, screen, trig)
    ensures |trajectory| <= MaxPoints(isPreview)
    ensures forall i :: 0 <= i < |trajectory| - 1 ==> OnScreen(trajectory[i], screen)
  {
    var v := Launch(angle, velocity, isAI, trig);
    var vx := v.vx;
    var vy := v.vy;
    trajectory := [];
    var x := start.x;
    var y := start.y;
    var t := 0.0;
    var currentVX := vx;
    var maxPoints := MaxPoints(isPreview);
    var timeStep := TimeStep(isPreview);
    while 0.0 <= x <= screen.width && 0.0 <= y <= screen.height && |trajectory| < maxPoints
      invariant |trajectory| <= maxPoints
      invariant Flight(x, y, t, currentVX) == FlightAfter(start, v, wind, timeStep, |trajectory|)
      invariant forall k :: 0 <= k < |trajectory| ==> trajectory[k] == PositionAfter(start, v, wind, timeStep, k + 1)
      invariant forall j :: 0 <= j < |trajectory| ==> OnScreen(PositionAfter(start, v, wind, timeStep, j), screen)
      decreases maxPoints - |trajectory|
    {
      ghost var next := Step(Flight(x, y, t, currentVX), vy, wind, timeStep);
      currentVX := currentVX + wind * WindDrift;
      x := x + currentVX * timeStep;
      y := y + (vy + Gravity * t) * timeStep;
      trajectory := trajectory + [Position(x, y)];
      t := t + timeStep;
      assert Flight(x, y, t, currentVX) == next;
    }
    PointCountUnique(start, v, wind, timeStep, maxPoints, screen, 0, |trajectory|);
    TrajectoryExtensional(start, angle, velocity, wind, isAI, isPreview, screen, trig, trajectory);
  }
}

=== FILE: types.dfy ===
/** Value types shared by the artillery simulation: screen-space points,
    the two players, buildings, and the terrain tiling invariant.
    Screen space has its origin at the top-left corner and y grows downward. */
module Types {

  datatype Option<+T> = None | Some(value: T)

  /** A point in screen space (also used for building-local damage records). */
  datatype Position = Position(x: real, y: real)

  datatype PlayerType = Human | AI

  /** The player who is not `p`: the target of `p`'s shots and the one who moves after them. */
  function Opponent(p: PlayerType): (q: PlayerType)
    ensures q != p
  {
    if p == Human then AI else Human
  }

  datatype GameState = Menu | Playing | LevelComplete

  /** The seven building colours, cycled through left to right. */
  const BuildingColors: seq<string> :=
    ["#059669", "#DC2626", "#2563EB", "#D97706", "#4F46E5", "#7C3AED", "#BE185D"]

  /** A building occupies [x, x + width] x [y, y + height]; `y` is its top edge.
      `damagePositions` are impacts in building-local coordinates (origin at the top-left). */
  datatype Building = Building(
    x: real,
    y: real,
    width: real,
    height: real,
    color: string,
    damaged: bool,
    damagePositions: seq<Position>)

  /** Two buildings with the same rectangle and colour, whatever their damage. */
  predicate SameShape(a: Building, b: Building) {
    a.x == b.x && a.y == b.y && a.width == b.width && a.height == b.height && a.color == b.color
  }

  datatype PlayerPositions = PlayerPositions(human: Position, ai: Position)

  function PositionOf(who: PlayerType, players: PlayerPositions): Position {
    match who
    case Human => players.human
    case AI => players.ai
  }

  /** Window dimensions, passed in rather than read from a global. */
  datatype Screen = Screen(width: real, height: real)

  predicate ValidScreen(s: Screen) {
    s.width >= 0.0 && s.height >= 0.0
  }

  /** The closed screen rectangle [0, width] x [0, height]. */
  predicate OnScreen(p: Position, s: Screen) {
    0.0 <= p.x <= s.width && 0.0 <= p.y <= s.height
  }

  /** Terrain invariant: the buildings tile [0, width] left to right with no gap. */
  predicate Tiles(bs: seq<Building>, width: real) {
    && |bs| > 0
    && bs[0].x == 0.0
    && (forall i :: 0 <= i < |bs| - 1 ==> bs[i].x + bs[i].width == bs[i + 1].x)
    && bs[|bs| - 1].x + bs[|bs| - 1].width == width
  }

  /** A value of Math.random(): uniform in [0, 1). */
  predicate IsDraw(r: real) {
    0.0 <= r < 1.0
  }

  lemma MulNonneg(a: real, b: real)
    requires a >= 0.0 && b >= 0.0
    ensures a * b >= 0.0
  {
  }

  lemma ScaledBound(draw: real, bound: real)
    requires IsDraw(draw) && bound >= 0.0
    ensures 0.0 <= draw * bound <= bound
    ensures bound > 0.0 ==> draw * bound < bound
  {
    assert bound - draw * bound == (1.0 - draw) * bound;
  }

  function Min(a: real, b: real): real {
    if a <= b then a else b
  }

  function Max(a: real, b: real): real {
    if a >= b then a else b
  }

  function Abs(a: real): real {
    if a >= 0.0 then a else -a
  }
}
